=== FILE: README.md ===
# Theater ticket pricing — a Dafny model

This project models the core of a small movie-theater booking library: the
ticket-pricing rule and the validated domain records around it.

- A **movie** has a title, a running time, a base ticket price and a special code.
  Code 1 marks a special movie.
- A **showing** screens a movie at a position of the day's sequence, at a start time.
- A **customer** has a name and an id.
- A **reservation** is a customer, a showing and a ticket count.
- The **theater** holds today's fixed nine-showing schedule and reserves tickets by
  sequence number.

The price of a ticket is the base price less one discount: the largest of
20% for a special movie, 25% for a start hour from 11 to 16, and a flat
$3 / $2 / $1 for the 1st / 2nd / 7th showing of the day. The two percentage
discounts do not stack. The code takes the larger of them with `max`. It then
compares that with the flat amount using a strict `>`, so on a tie the flat
amount is returned. The fee is not clamped at zero.

The rule is written twice in the source: in `Movie.getDiscount` and in
`Showing.getDiscount`. The model keeps both copies (`Movies.Discount`,
`Showings.Discount`). It states the rule table once more, independently
(`Pricing.Candidates`), with "the largest candidate" (`Pricing.IsLargest`) as
the reference. Each copy is proved to pick the largest candidate, and
`Showings.FeeAgreesWithMovie` proves the two copies agree.

Modelling choices:

- Prices are `real`, so 0.2, 0.25 and 12.5 are exact.
- A start time is a date plus an hour (0..23) and a minute. The date is an opaque
  value that the date provider supplies as a parameter.
- A running time is a whole number of minutes.
- A Java `null` argument is `Option.None`.
- Each exception is an `Err` with one `Error` variant per kind of check. Some
  variants cover several throw sites: `NonPositiveTicketCount` is raised by both
  `reserve` and the reservation constructor, and `NullReference` by every null
  dereference. Distinct kinds make the order of the checks observable.
- `Movie.calculateTicketPrice(Showing)` reads only the showing's sequence and start
  hour, so the model passes those two values. This keeps the movie and showing
  modules free of a cycle.
- `isSpecialMovie()` is called at `Showing.java:91`, but `Movie.java` does not
  define it. It is modelled as `specialCode == MOVIE_CODE_SPECIAL`.

Three facts about the code that a reader might not expect:

- The fee is not clamped at zero (`Showing.java:78`). A $2 movie at the first
  showing costs -1 (`Showings.NoFloorAtZero`). The fee is non-negative only from
  a $3 base price upward (`Showings.FeeNonNegative`).
- The running time is only checked for presence (`Movie.java:25`). A zero or
  negative duration is accepted.
- The special marker is an integer code (`Movie.java:8, 79`). Only code 1 counts
  as special.

`Reservation.java` is a two-argument version whose `totalFee` is the undiscounted
base price. `Theater.reserve` (`Theater.java:79`) and the tests call a
three-argument constructor that `Reservation.java` does not have.
`ReservationTests.java:37-38` and `TheaterTests.java:40-93` expect it to reject a
non-positive ticket count and to total `ticketCount × calculateFee()`. The model
defines the three-argument form as `Reservations.Reservation` and keeps the
two-argument one as `Reservations.LegacyReservation`.

Three test expectations contradict the code and are not encoded:

- `TheaterTests.java:14-15` expects the null-customer error for `reserve(null, 9, 0)`.
  The ticket-count check fires first.
- `TheaterTests.java:68-69` expects 36 for sequence 7. The rule gives 4 × (11 − 1) = 40.
- `ReservationTests.java:24-25` expects 50 for 5 tickets of a $10 movie. That is
  5 × the undiscounted $10, not the discounted total; the two-argument `totalFee`
  would return 10.

## Model

| member | source | states |
|---|---|---|
| Pricing.FlatDiscount | src/main/java/com/jpmc/theater/Movie.java:87-94 | the flat sequence discount lies in [0, 3] and is non-zero exactly for sequences 1, 2 and 7 |
| Pricing.LargestBounds | src/main/java/com/jpmc/theater/Showing.java:108-110 | for a non-negative price the chosen discount is between 0 and max(25% of the price, 3) |
| Pricing.LargestIsUnique | src/main/java/com/jpmc/theater/Showing.java:108-110 | "the largest eligible discount" determines one amount, so any two implementations that pick it agree |
| Movies.NewMovie | src/main/java/com/jpmc/theater/Movie.java:24-31 | a movie is built iff the title is non-empty, the running time is present and the price is ≥ 0 (0 accepted); a null title fails with a null dereference; the fields are stored unchanged |
| Movies.NewMovieOfValid | src/main/java/com/jpmc/theater/Movie.java:24-31 | every movie satisfying the constructor's checks is what the constructor returns for its own fields |
| Movies.Discount | src/main/java/com/jpmc/theater/Movie.java:76-99 | the movie's copy of the rule returns the largest of the special, midday and sequence candidates |
| Movies.CalculateTicketPrice | src/main/java/com/jpmc/theater/Movie.java:63-65 | the ticket price is the base price less the largest candidate; for a non-negative price it lies in [price − max(0.25·price, 3), price] |
| Movies.DiscountIsMaximum | src/main/java/com/jpmc/theater/Movie.java:96-98 | the discount equals max(max(special, midday), sequence), also on a tie where the strict `>` returns the flat amount |
| Movies.SpecialDiscountRule | src/main/java/com/jpmc/theater/Movie.java:79-81 | with no other rule firing, a positive-price movie gets exactly 20% off iff its code is 1; any other code gets 0 |
| Movies.MiddayDiscountRule | src/main/java/com/jpmc/theater/Movie.java:82-85 | with no other rule firing, a positive-price movie gets exactly 25% off iff the start hour is 11..16 inclusive, and 0 otherwise |
| Movies.SequenceDiscountRule | src/main/java/com/jpmc/theater/Movie.java:87-94 | with no percentage rule firing, the discount is 3, 2, 1 for sequence 1, 2, 7 and 0 otherwise, for every price |
| Movies.TicketPriceExamples | src/main/java/com/jpmc/theater/MovieTests.java:28-67 | a $10 movie costs 10 with no discount, 7.5 at midday, 8 at sequence 2, 8 when special at 19:50 (hour 19), and 7 when special, midday and first |
| Movies.Equals | src/main/java/com/jpmc/theater/Movie.java:107-116 | two movies are equal iff they are structurally equal: price, title, running time and code |
| Movies.PriceChangeBreaksEquality | src/main/java/com/jpmc/theater/MovieTests.java:79-85 | changing only the price makes a movie unequal to the original, and equality is reflexive |
| Showings.IsSequence | src/main/java/com/jpmc/theater/Showing.java:53-55 | a showing matches a sequence number exactly when renumbering it to that number leaves it unchanged |
| Showings.NewShowing | src/main/java/com/jpmc/theater/Showing.java:24-30 | a showing is built iff the movie and start time are present and the sequence is > 0; the fields are stored unchanged |
| Showings.Discount | src/main/java/com/jpmc/theater/Showing.java:88-111 | the showing's copy of the rule returns the largest of the three candidates |
| Showings.CalculateFee | src/main/java/com/jpmc/theater/Showing.java:77-79 | the fee is the movie fee less the largest candidate; for a non-negative price it lies in [price − max(0.25·price, 3), price] |
| Showings.FeeAgreesWithMovie | src/main/java/com/jpmc/theater/Showing.java:77-111 | the showing's fee equals the movie's ticket price for that showing's sequence and hour |
| Showings.PercentagesDoNotStack | src/main/java/com/jpmc/theater/Showing.java:108-110 | a special movie at midday gets max(25%, flat), never 20% + 25% |
| Showings.FeeNonNegative | src/main/java/com/jpmc/theater/Showing.java:77-79 | a base price of at least 3 gives a non-negative fee |
| Showings.NoFloorAtZero | src/main/java/com/jpmc/theater/Showing.java:99-101 | a valid $2 movie that is not special, shown first at 9:00, costs -1 |
| Customers.NewCustomer | src/main/java/com/jpmc/theater/Customer.java:20-25 | a customer is built iff name and id are present and non-empty; the id is checked before the name, and a null one fails with a null dereference |
| Customers.Equals | src/main/java/com/jpmc/theater/Customer.java:32-38 | two customers are equal iff their names and their ids are equal |
| Customers.EqualsIsEquivalence | src/main/java/com/jpmc/theater/Customer.java:33-37 | customer equality is reflexive, symmetric and transitive |
| Customers.EqualsExamples | src/main/java/com/jpmc/theater/CustomerTests.java:12-34 | the same name and id give equal customers, a different id gives unequal ones, and an empty name is rejected |
| Customers.ToString | src/main/java/com/jpmc/theater/Customer.java:53-56 | the text is "name: ", the name, ", id: ", the id, in that order, and its length is the two lengths plus 12 |
| Customers.ToStringInjective | src/main/java/com/jpmc/theater/Customer.java:53-56 | "name: N, id: I" identifies the customer when names contain no comma |
| Customers.ToStringAmbiguousWithCommas | src/main/java/com/jpmc/theater/Customer.java:54-56 | with commas in names, two different customers can render to the same text |
| Reservations.NewReservation | src/main/java/com/jpmc/theater/ReservationTests.java:28-39 | a reservation is built iff the ticket count is > 0; customer, showing and count are stored unchanged |
| Reservations.TotalFee | src/main/java/com/jpmc/theater/TheaterTests.java:40-93 | for a non-negative count and price, the total (count × discounted fee) never exceeds count × base price |
| Reservations.TotalFeeLowerBound | src/main/java/com/jpmc/theater/TheaterTests.java:40-93 | for a non-negative count and price, the total is at least count × (price − max(25% of the price, 3)), the lowest per-ticket price the rule gives |
| Reservations.LegacyTotalFee | src/main/java/com/jpmc/theater/Reservation.java:12-14 | for a non-negative price, the superseded total is at least the discounted fee of one ticket |
| Reservations.TotalFeeOfOneTicket | src/main/java/com/jpmc/theater/TheaterTests.java:40-45 | the total for one ticket is the showing's discounted fee |
| Reservations.TotalFeeIsLinear | src/main/java/com/jpmc/theater/TheaterTests.java:40-93 | the total is linear in the ticket count: total(a + b) = total(a) + total(b) |
| Reservations.TotalFeeIgnoresCustomer | src/main/java/com/jpmc/theater/Reservation.java:12-14 | replacing the customer does not change the total |
| Reservations.LegacyTotalFeeIsBasePrice | src/main/java/com/jpmc/theater/Reservation.java:12-14 | the superseded total is the movie's undiscounted price; it is at least the discounted fee, and it equals a one-ticket total iff no discount applies |
| Theaters.SetupSchedule | src/main/java/com/jpmc/theater/Theater.java:38-54 | the schedule has 9 showings; position i holds sequence i+1; start times strictly increase; all fall on the given date; every showing passes the constructors' checks |
| Theaters.NewTheater | src/main/java/com/jpmc/theater/Theater.java:27-32 | a theater is built iff the provider is present, and then it holds exactly `SetupSchedule` of the provider's date: the nine fixed showings, dense and all on that date |
| Theaters.IsSequenceIdentifiesPosition | src/main/java/com/jpmc/theater/Showing.java:53-55 | in a dense schedule the showing at position i answers `isSequence(n)` exactly for n = i + 1 |
| Theaters.Reserve | src/main/java/com/jpmc/theater/Theater.java:67-80 | the count is checked first, then the customer, then the sequence range 1..size; success holds schedule[sequence−1], which answers `isSequence(sequence)`, with the given customer and count |
| Theaters.ReserveExamples | src/main/java/com/jpmc/theater/TheaterTests.java:40-93 | four tickets cost 36, 33, 40, 40 and 37.5 at sequences 9, 4, 7, 8 and 2; no tickets for no customer fails on the count; sequence 10 is not found |
| Theaters.HandlePlural | src/main/java/com/jpmc/theater/Theater.java:117-124 | the suffix is empty iff the value is 1, and "s" otherwise |
| Theaters.HoursAndMinutes | src/main/java/com/jpmc/theater/Theater.java:105-107 | hours·60 + remainder = minutes, with \|remainder\| < 60 and the remainder carrying the sign of the duration, as truncating `toHours` gives |
| Theaters.HoursAndMinutesOfNonNegative | src/main/java/com/jpmc/theater/Theater.java:106-107 | for a non-negative duration, hours = minutes div 60 and remainder = minutes mod 60 |
| Theaters.HumanReadableFormat | src/main/java/com/jpmc/theater/Theater.java:105-110 | the text is wrapped in parentheses; it opens with the hours' decimal text as written by `%s`, which contains no space and is followed by a space |
| Theaters.HumanReadableFormatExample | src/main/java/com/jpmc/theater/Theater.java:105-110 | 90 minutes is rendered "(1 hour 30 minutes)" |
| Theaters.HumanReadableFormatSingularMinute | src/main/java/com/jpmc/theater/Theater.java:109 | 121 minutes is rendered "(2 hours 1 minute)" |
| Theaters.HumanReadableFormatInjective | src/main/java/com/jpmc/theater/Theater.java:105-110 | different running times render to different strings |
| Decimal.IntToStringInjective | src/main/java/com/jpmc/theater/Theater.java:109 | the decimal rendering of a `long` written by `%s` identifies the number |

## Left out

- `LocalDateProvider`: it is a singleton around the system clock (`LocalDate.now()`). The theater gets today's date as one value. `setupSchedule` asks the provider nine times, so a theater built across midnight can get showings on two dates. The model reads the date once, and that is why `Theaters.SetupSchedule` can promise that all showings are on the given date.
- `printSchedule`, `printScheduleInJSON` and `main`: console output and JSON rendering.
- `printStackTrace` and exception message texts: errors are `Error` variants.
- `Movie.hashCode` and `Customer.hashCode`: the movie one names a field that does not exist.
- IEEE-754 rounding of `double` prices, NaN, and the `-0.0` case of `Double.compare`: prices are exact reals.
- `java.time` internals: a start time keeps only its date, hour and minute. A running time is whole minutes, so sub-minute durations are not modelled.
- Null strings inside `Objects.equals`, and `equals` against objects of another class: arguments are typed records.
- 32-bit `int` / `long` widths for the sequence, ticket count and hours: they are unbounded here. In `reserve`, `sequence - 1` wraps only at `Integer.MIN_VALUE`, and it is still out of range, so the outcome is the same.
- The getters (`getTitle`, `getRunningTime`, `getTicketPrice`, `getMovie`, `getStartTime`, `getSequenceOfTheDay`) are the datatype fields. `getMovieFee` is `Showings.MovieFee`.
- Customers.ToStringInjective: stated only for names without a comma, because with commas the rendering is ambiguous (`Customers.ToStringAmbiguousWithCommas`).
- Theaters.HumanReadableFormat: the contract pins only the parentheses and the hours text with the space after it. The minutes and the two plural suffixes are shown by `Theaters.HumanReadableFormatExample` and `Theaters.HumanReadableFormatSingularMinute`, and `Theaters.HumanReadableFormatInjective` shows that the whole text identifies the duration.

=== FILE: customer.dfy ===
/** A customer of the theater, identified by a name and an id. */
module Customers {
  import opened Outcomes
  import Strings

  datatype Customer = Customer(name: string, id: string)

  /** The constructor. The id is examined first: a null id fails on
      `id.equals("")`, an empty id is rejected without looking at the name, and
      only then is the name examined the same way. */
  function NewCustomer(name: Option<string>, id: Option<string>): (r: Result<Customer>)
    ensures r.Ok? <==> name.Some? && id.Some? && name.value != "" && id.value != ""
    ensures id.None? ==> r == Err(NullReference)
    ensures id.Some? && id.value == "" ==> r == Err(InvalidCustomer)
    ensures id.Some? && id.value != "" && name.None? ==> r == Err(NullReference)
    ensures id.Some? && id.value != "" && name.Some? && name.value == "" ==> r == Err(InvalidCustomer)
    ensures r.Ok? ==> r.value == Customer(name.value, id.value)
  {
    if id.None? then Err(NullReference)
    else if id.value == "" then Err(InvalidCustomer)
    else if name.None? then Err(NullReference)
    else if name.value == "" then Err(InvalidCustomer)
    else Ok(Customer(name.value, id.value))
  }

  /** `equals`: equal names and equal ids, which is structural equality. */
  function Equals(a: Customer, b: Customer): (r: bool)
    ensures r <==> a == b
  {
    a.name == b.name && a.id == b.id
  }

  /** `equals` is reflexive, symmetric and transitive. */
  lemma EqualsIsEquivalence(a: Customer, b: Customer, c: Customer)
    ensures Equals(a, a)
    ensures Equals(a, b) <==> Equals(b, a)
    ensures Equals(a, b) && Equals(b, c) ==> Equals(a, c)
  {
  }

  /** Customers built from the same name and id are equal; a different id
      makes them unequal. */
  lemma EqualsExamples()
    ensures NewCustomer(Some("john"), Some("john123")).Ok?
    ensures Equals(NewCustomer(Some("john"), Some("john123")).value,
                   NewCustomer(Some("john"), Some("john123")).value)
    ensures !Equals(NewCustomer(Some("john"), Some("john123")).value,
                    NewCustomer(Some("john"), Some("john124")).value)
    ensures NewCustomer(Some(""), Some("john123")) == Err(InvalidCustomer)
  {
  }

  /** `toString`. */
  function ToString(c: Customer): (s: string)
    ensures |s| == |c.name| + |c.id| + 12
    ensures s[..6] == "name: " && s[6..6 + |c.name|] == c.name
    ensures s[6 + |c.name|..|s| - |c.id|] == ", id: " && s[|s| - |c.id|..] == c.id
  {
    "name: " + c.name + ", " + "id: " + c.id
  }

  /** The rendering identifies the customer as long as names carry no comma. */
  lemma ToStringInjective(a: Customer, b: Customer)
    requires Strings.Lacks(a.name, ',') && Strings.Lacks(b.name, ',')
    requires ToString(a) == ToString(b)
    ensures a == b
  {
    AfterNameLabel(a);
    AfterNameLabel(b);
    Strings.SplitAtFirst(a.name, ", id: " + a.id, b.name, ", id: " + b.id, ',');
    assert a.id == (", id: " + a.id)[6..];
    assert b.id == (", id: " + b.id)[6..];
  }

  /** What follows the "name: " label is the name, then ", id: " and the id. */
  lemma AfterNameLabel(c: Customer)
    ensures ToString(c)[6..] == c.name + (", id: " + c.id)
  {
    assert ToString(c) == "name: " + (c.name + (", id: " + c.id));
  }

  /** Without that restriction two different customers can render alike. */
  lemma ToStringAmbiguousWithCommas()
    ensures ToString(Customer("a, id: b", "c")) == ToString(Customer("a", "b, id: c"))
  {
  }
}

=== FILE: decimal.dfy ===
/** Decimal rendering of integers as Java's `Long.toString` writes them (and so
    `String.format("%s", n)` for a `long`): an optional minus sign followed by
    the digits, without leading zeros. */
module Decimal {

  predicate IsDigit(c: char) {
    '0' <= c <= '9'
  }

  function DigitChar(d: int): (c: char)
    requires 0 <= d < 10
    ensures IsDigit(c)
    ensures c as int - '0' as int == d
  {
    ('0' as int + d) as char
  }

  /** Digits of a natural number, most significant first. */
  function NatToString(n: nat): (s: string)
    ensures |s| > 0
    ensures forall i | 0 <= i < |s| :: IsDigit(s[i])
    ensures s[0] == '0' <==> n == 0
    decreases n
  {
    if n < 10 then [DigitChar(n)]
    else NatToString(n / 10) + [DigitChar(n % 10)]
  }

  /** The number a string of digits denotes. */
  function ValueOf(s: string): int {
    if |s| == 0 then 0
    else 10 * ValueOf(s[..|s| - 1]) + (s[|s| - 1] as int - '0' as int)
  }

  /** Reading the digits back gives the number that was written. */
  lemma {:induction false} ValueOfNatToString(n: nat)
    ensures ValueOf(NatToString(n)) == n
    decreases n
  {
    if n >= 10 {
      var s := NatToString(n);
      assert s[..|s| - 1] == NatToString(n / 10);
      ValueOfNatToString(n / 10);
    }
  }

  /** `Long.toString(n)`. */
  function IntToString(n: int): (s: string)
    ensures |s| > 0
    ensures forall i | 0 <= i < |s| :: IsDigit(s[i]) || (i == 0 && s[i] == '-')
    ensures s[0] == '-' <==> n < 0
  {
    if n < 0 then "-" + NatToString(-n) else NatToString(n)
  }

  /** `Long.parseLong` on the strings `IntToString` produces. */
  function ParseInt(s: string): int {
    if |s| > 0 && s[0] == '-' then -ValueOf(s[1..]) else ValueOf(s)
  }

  lemma ParseIntToString(n: int)
    ensures ParseInt(IntToString(n)) == n
  {
    if n < 0 {
      assert IntToString(n)[1..] == NatToString(-n);
      ValueOfNatToString(-n);
    } else {
      ValueOfNatToString(n);
    }
  }

  /** Distinct numbers are written differently. */
  lemma IntToStringInjective(a: int, b: int)
    requires IntToString(a) == IntToString(b)
    ensures a == b
  {
    ParseIntToString(a);
    ParseIntToString(b);
  }
}

=== FILE: movie.dfy ===
/** A movie: title, running time, base ticket price and a code that marks it as
    special. A movie prices a ticket for one of its showings by taking the largest
    discount the showing is eligible for off the base price. */
module Movies {
  import opened Outcomes
  import opened Times
  import Pricing

  /** The one code that marks a movie as special. */
  const MovieCodeSpecial: int := 1

  /** The running time is a whole number of minutes. */
  datatype Movie = Movie(title: string, runningTime: int, ticketPrice: real, specialCode: int)

  /** What the constructor guarantees of every movie it returns. */
  predicate Valid(m: Movie) {
    m.title != "" && m.ticketPrice >= 0.0
  }

  /** The constructor. A null title fails on `title.equals("")` before any check;
      otherwise an empty title, a missing running time or a negative price is
      rejected, and a price of 0 is accepted. */
  function NewMovie(title: Option<string>, runningTime: Option<int>, ticketPrice: real, specialCode: int)
    : (r: Result<Movie>)
    ensures r.Ok? <==> title.Some? && title.value != "" && runningTime.Some? && ticketPrice >= 0.0
    ensures title.None? ==> r == Err(NullReference)
    ensures title.Some? && r.Err? ==> r.error == InvalidMovie
    ensures r.Ok? ==> Valid(r.value)
    ensures r.Ok? ==> r.value == Movie(title.value, runningTime.value, ticketPrice, specialCode)
  {
    if title.None? then Err(NullReference)
    else if title.value == "" || runningTime.None? || ticketPrice < 0.0 then Err(InvalidMovie)
    else Ok(Movie(title.value, runningTime.value, ticketPrice, specialCode))
  }

  /** Every valid movie is what the constructor returns for its own fields. */
  lemma NewMovieOfValid(m: Movie)
    requires Valid(m)
    ensures NewMovie(Some(m.title), Some(m.runningTime), m.ticketPrice, m.specialCode) == Ok(m)
  {
  }

  /** `isSpecialMovie`, which the showing's copy of the rule calls: the movie
      carries the special code. */
  function IsSpecialMovie(m: Movie): (b: bool)
    ensures b <==> m.specialCode == 1
  {
    m.specialCode == MovieCodeSpecial
  }

  /** The discount for a showing of this movie at position `showSequence` of the
      day starting at hour `hour`: the two percentage discounts do not stack (the
      larger is taken) and the flat sequence discount wins unless the percentage
      one is strictly larger. The result is the largest eligible discount. */
  function Discount(m: Movie, showSequence: int, hour: Hour): (d: real)
    ensures Pricing.IsLargest(d, Pricing.Candidates(m.ticketPrice, IsSpecialMovie(m), hour, showSequence))
  {
    var specialDiscount := if MovieCodeSpecial == m.specialCode then m.ticketPrice * 0.2 else 0.0;
    var midDayDiscount := if hour >= 11 && hour <= 16 then m.ticketPrice * 0.25 else 0.0;
    var sequenceDiscount :=
      if showSequence == 1 then 3.0
      else if showSequence == 2 then 2.0
      else if showSequence == 7 then 1.0
      else 0.0;
    var percentageDiscount := Pricing.Max(specialDiscount, midDayDiscount);
    if percentageDiscount > sequenceDiscount then percentageDiscount else sequenceDiscount
  }

  /** The price of one ticket for a showing, which enters only through its
      sequence of the day and its start hour. */
  function CalculateTicketPrice(m: Movie, showSequence: int, hour: Hour): (price: real)
    ensures Pricing.IsLargest(m.ticketPrice - price,
                              Pricing.Candidates(m.ticketPrice, IsSpecialMovie(m), hour, showSequence))
    ensures m.ticketPrice >= 0.0 ==>
              Pricing.LowestPrice(m.ticketPrice) <= price <= m.ticketPrice
  {
    var d := Discount(m, showSequence, hour);
    Pricing.LargestBounds(d, m.ticketPrice, IsSpecialMovie(m), hour, showSequence);
    m.ticketPrice - d
  }

  /** The discount is the maximum of the three candidates. On a tie between the
      percentage and the flat discount the flat one is returned, which is the
      same amount. */
  lemma DiscountIsMaximum(m: Movie, showSequence: int, hour: Hour)
    ensures var cs := Pricing.Candidates(m.ticketPrice, IsSpecialMovie(m), hour, showSequence);
            Discount(m, showSequence, hour) == Pricing.Max(Pricing.Max(cs[0], cs[1]), cs[2])
  {
  }

  /** Away from the midday window and the discounted sequences, a movie of
      positive price gets 20% off exactly when its code is the special code;
      any other code gets nothing. */
  lemma SpecialDiscountRule(m: Movie, showSequence: int, hour: Hour)
    requires m.ticketPrice > 0.0
    requires !(11 <= hour <= 16)
    requires showSequence != 1 && showSequence != 2 && showSequence != 7
    ensures Discount(m, showSequence, hour) == 0.2 * m.ticketPrice <==> m.specialCode == 1
    ensures m.specialCode != 1 ==> Discount(m, showSequence, hour) == 0.0
  {
  }

  /** For a movie of positive price that is not special, at a sequence without a
      flat discount, 25% is taken off exactly when the start hour is 11 to 16. */
  lemma MiddayDiscountRule(m: Movie, showSequence: int, hour: Hour)
    requires m.ticketPrice > 0.0
    requires m.specialCode != 1
    requires showSequence != 1 && showSequence != 2 && showSequence != 7
    ensures Discount(m, showSequence, hour) == 0.25 * m.ticketPrice <==> 11 <= hour <= 16
    ensures !(11 <= hour <= 16) ==> Discount(m, showSequence, hour) == 0.0
  {
  }

  /** With no percentage discount, the discount is the flat amount for the
      sequence (3, 2, 1 for the 1st, 2nd, 7th showing, 0 otherwise) whatever
      the price. */
  lemma SequenceDiscountRule(m1: Movie, m2: Movie, showSequence: int, hour: Hour)
    requires m1.specialCode != 1 && m2.specialCode != 1
    requires !(11 <= hour <= 16)
    ensures Discount(m1, showSequence, hour) == Discount(m2, showSequence, hour)
    ensures Discount(m1, showSequence, hour) ==
              if showSequence == 1 then 3.0
              else if showSequence == 2 then 2.0
              else if showSequence == 7 then 1.0
              else 0.0
  {
  }

  /** The worked examples for a $10 movie. */
  lemma TicketPriceExamples()
    ensures CalculateTicketPrice(Movie("Spider-Man: No Way Home", 90, 10.0, 0), 5, 17) == 10.0
    ensures CalculateTicketPrice(Movie("Spider-Man: No Way Home", 90, 10.0, 0), 5, 12) == 7.5
    ensures CalculateTicketPrice(Movie("Spider-Man: No Way Home", 90, 10.0, 0), 2, 10) == 8.0
    ensures CalculateTicketPrice(Movie("Spider-Man: No Way Home", 90, 10.0, 1), 5, 19) == 8.0
    ensures CalculateTicketPrice(Movie("Spider-Man: No Way Home", 90, 10.0, 1), 1, 13) == 7.0
  {
  }

  /** `equals`: two movies are equal when price, title, running time and code
      all agree, which is structural equality of the record. */
  function Equals(a: Movie, b: Movie): (r: bool)
    ensures r <==> a == b
  {
    a.ticketPrice == b.ticketPrice
    && a.title == b.title
    && a.runningTime == b.runningTime
    && a.specialCode == b.specialCode
  }

  /** Changing the price alone makes a movie unequal to the original. */
  lemma PriceChangeBreaksEquality(m: Movie, price: real)
    requires price != m.ticketPrice
    ensures !Equals(m, m.(ticketPrice := price))
    ensures Equals(m, m)
  {
  }
}

=== FILE: outcomes.dfy ===
/** Failure values shared by the constructors and operations of the theater.
    A Java `null` argument is `None`; a thrown exception is an `Err`, with
    one `Error` variant per kind of check. */
module Outcomes {

  /** An argument that may be `null`. */
  datatype Option<+T> = None | Some(value: T)

  /** The exceptions the theater code raises, one variant per kind of check. */
  datatype Error =
    | NullReference            // a method called on a null argument
    | InvalidMovie             // Movie: empty title, no running time or negative price
    | InvalidShowing           // Showing: no movie, non-positive sequence or no start time
    | InvalidCustomer          // Customer: empty name or empty id
    | NonPositiveTicketCount   // reserve / Reservation: ticket count <= 0
    | NullCustomer             // reserve: no customer
    | NullProvider             // Theater: no date provider
    | ShowingNotFound          // reserve: no showing at that sequence (IllegalStateException)

  /** The outcome of an operation that either returns a value or throws. */
  datatype Result<+T> = Ok(value: T) | Err(error: Error)
}

=== FILE: pricing.dfy ===
/** The discount rule table, stated once and independently of the two copies of
    `getDiscount` in the theater code: a showing is eligible for up to three
    discounts, and the discount applied is the largest of them. */
module Pricing {

  /** `Math.max` on two amounts. */
  function Max(a: real, b: real): (m: real)
    ensures m >= a && m >= b
    ensures m == a || m == b
  {
    if a >= b then a else b
  }

  /** 20% off a special movie. */
  const SpecialRate: real := 0.2

  /** 25% off a showing that starts in the midday window. */
  const MiddayRate: real := 0.25

  /** The midday window covers every start hour from 11 to 16, both included. */
  const MiddayFirstHour: int := 11
  const MiddayLastHour: int := 16

  /** Flat amounts off the 1st, 2nd and 7th showing of the day. */
  const SequenceDiscounts: map<int, real> := map[1 := 3.0, 2 := 2.0, 7 := 1.0]

  /** The largest flat amount in the table. */
  const LargestFlatDiscount: real := 3.0

  predicate IsMidday(hour: int) {
    MiddayFirstHour <= hour <= MiddayLastHour
  }

  function FlatDiscount(sequence: int): (d: real)
    ensures 0.0 <= d <= LargestFlatDiscount
    ensures d != 0.0 <==> sequence in {1, 2, 7}
  {
    if sequence in SequenceDiscounts then SequenceDiscounts[sequence] else 0.0
  }

  /** The three discounts a showing is eligible for, in the order special,
      midday, sequence; a rule that does not fire contributes 0. */
  function Candidates(price: real, special: bool, hour: int, sequence: int): (cs: seq<real>)
    ensures |cs| == 3
  {
    [ if special then SpecialRate * price else 0.0,
      if IsMidday(hour) then MiddayRate * price else 0.0,
      FlatDiscount(sequence) ]
  }

  /** `d` is one of the candidates and no candidate exceeds it. */
  predicate IsLargest(d: real, cs: seq<real>) {
    d in cs && forall c | c in cs :: c <= d
  }

  /** There is only one largest candidate, so any two definitions of the
      discount that both pick the largest one agree. */
  lemma LargestIsUnique(d1: real, d2: real, cs: seq<real>)
    requires IsLargest(d1, cs) && IsLargest(d2, cs)
    ensures d1 == d2
  {
  }

  /** The lowest ticket price the rules can produce for a base price: the base
      less the larger of its 25% and the largest flat amount. */
  function LowestPrice(price: real): real {
    price - Max(MiddayRate * price, LargestFlatDiscount)
  }

  /** For a non-negative price the discount is never negative and never more
      than the larger of 25% of the price and the largest flat amount. */
  lemma LargestBounds(d: real, price: real, special: bool, hour: int, sequence: int)
    requires IsLargest(d, Candidates(price, special, hour, sequence))
    ensures price >= 0.0 ==> 0.0 <= d <= Max(MiddayRate * price, LargestFlatDiscount)
  {
    var cs := Candidates(price, special, hour, sequence);
    assert cs[2] in cs;
  }
}

=== FILE: reservation.dfy ===
/** A reservation: a customer, a showing and a number of tickets. */
module Reservations {
  import opened Outcomes
  import opened Customers
  import opened Showings
  import Pricing

  datatype Reservation = Reservation(customer: Customer, showing: Showing, ticketCount: int)

  /** The constructor: a ticket count of 0 or less is rejected; otherwise the
      customer, showing and count are stored unchanged. */
  function NewReservation(customer: Customer, showing: Showing, ticketCount: int): (r: Result<Reservation>)
    ensures r.Ok? <==> ticketCount > 0
    ensures r.Err? ==> r.error == NonPositiveTicketCount
    ensures r.Ok? ==> r.value.customer == customer && r.value.showing == showing
                      && r.value.ticketCount == ticketCount
  {
    if ticketCount <= 0 then Err(NonPositiveTicketCount)
    else Ok(Reservation(customer, showing, ticketCount))
  }

  /** The total price: one discounted ticket price per ticket. For a
      non-negative count and price it never exceeds the undiscounted total. */
  function TotalFee(r: Reservation): (total: real)
    ensures r.ticketCount >= 0 && MovieFee(r.showing) >= 0.0 ==> total <= r.ticketCount as real * MovieFee(r.showing)
  {
    r.ticketCount as real * CalculateFee(r.showing)
  }

  /** For a non-negative count and price the total is never less than the
      count times the lowest price the rule can give. */
  lemma TotalFeeLowerBound(r: Reservation)
    requires r.ticketCount >= 0 && MovieFee(r.showing) >= 0.0
    ensures r.ticketCount as real * Pricing.LowestPrice(MovieFee(r.showing)) <= TotalFee(r)
  {
    var n, lo, f := r.ticketCount as real, Pricing.LowestPrice(MovieFee(r.showing)), CalculateFee(r.showing);
    MulNonNegative(n, f - lo);
    assert n * f - n * lo == n * (f - lo);
  }

  /** The product of two non-negative reals is non-negative. */
  lemma MulNonNegative(x: real, y: real)
    requires x >= 0.0 && y >= 0.0
    ensures x * y >= 0.0
  {
  }

  /** One ticket costs the showing's fee. */
  lemma TotalFeeOfOneTicket(r: Reservation)
    requires r.ticketCount == 1
    ensures TotalFee(r) == CalculateFee(r.showing)
  {
  }

  /** The total is linear in the ticket count: splitting a count splits the
      total. */
  lemma TotalFeeIsLinear(r: Reservation, a: int, b: int)
    ensures TotalFee(r.(ticketCount := a + b)) == TotalFee(r.(ticketCount := a)) + TotalFee(r.(ticketCount := b))
  {
  }

  /** Who holds the reservation does not change its price. */
  lemma TotalFeeIgnoresCustomer(r: Reservation, other: Customer)
    ensures TotalFee(r.(customer := other)) == TotalFee(r)
  {
  }

  /** The superseded two-argument reservation: no ticket count, and a total
      that is simply the movie fee. */
  datatype LegacyReservation = LegacyReservation(customer: Customer, showing: Showing)

  function LegacyTotalFee(r: LegacyReservation): (fee: real)
    ensures MovieFee(r.showing) >= 0.0 ==> fee >= CalculateFee(r.showing)
  {
    MovieFee(r.showing)
  }

  /** The superseded total is the undiscounted base price: it never undercuts
      the discounted price of one ticket and matches it only when no discount
      applies. */
  lemma LegacyTotalFeeIsBasePrice(c: Customer, s: Showing)
    ensures LegacyTotalFee(LegacyReservation(c, s)) == s.movie.ticketPrice
    ensures s.movie.ticketPrice >= 0.0 ==> LegacyTotalFee(LegacyReservation(c, s)) >= CalculateFee(s)
    ensures LegacyTotalFee(LegacyReservation(c, s)) == TotalFee(Reservation(c, s, 1)) <==> Discount(s) == 0.0
  {
  }
}

=== FILE: showing.dfy ===
/** A showing: a movie screened at a given position of the day's sequence and a
    given start time. It prices its own tickets with its own copy of the
    discount rule. */
module Showings {
  import opened Outcomes
  import opened Times
  import opened Movies
  import Pricing

  datatype Showing = Showing(movie: Movie, sequenceOfTheDay: int, startTime: DateTime)

  /** The constructor: a missing movie, a sequence of 0 or less, or a missing
      start time is rejected. */
  function NewShowing(movie: Option<Movie>, sequenceOfTheDay: int, startTime: Option<DateTime>)
    : (r: Result<Showing>)
    ensures r.Ok? <==> movie.Some? && sequenceOfTheDay > 0 && startTime.Some?
    ensures r.Err? ==> r.error == InvalidShowing
    ensures r.Ok? ==> r.value == Showing(movie.value, sequenceOfTheDay, startTime.value)
  {
    if movie.None? || sequenceOfTheDay <= 0 || startTime.None? then Err(InvalidShowing)
    else Ok(Showing(movie.value, sequenceOfTheDay, startTime.value))
  }

  /** A showing matches a sequence number exactly when renumbering it to that
      number leaves it unchanged. */
  function IsSequence(s: Showing, sequence: int): (b: bool)
    ensures b <==> s == s.(sequenceOfTheDay := sequence)
  {
    s.sequenceOfTheDay == sequence
  }

  /** The undiscounted ticket price of the showing's movie. */
  function MovieFee(s: Showing): real {
    s.movie.ticketPrice
  }

  /** The discount eligible candidates of this showing. */
  function Candidates(s: Showing): seq<real> {
    Pricing.Candidates(MovieFee(s), IsSpecialMovie(s.movie), s.startTime.hour, s.sequenceOfTheDay)
  }

  /** The showing's own copy of the discount rule; it picks the largest eligible
      discount. */
  function Discount(s: Showing): (d: real)
    ensures Pricing.IsLargest(d, Candidates(s))
  {
    var specialDiscount := if IsSpecialMovie(s.movie) then MovieFee(s) * 0.2 else 0.0;
    var midDayDiscount := if s.startTime.hour >= 11 && s.startTime.hour <= 16 then MovieFee(s) * 0.25 else 0.0;
    var sequenceDiscount :=
      if s.sequenceOfTheDay == 1 then 3.0
      else if s.sequenceOfTheDay == 2 then 2.0
      else if s.sequenceOfTheDay == 7 then 1.0
      else 0.0;
    var percentageDiscount := Pricing.Max(specialDiscount, midDayDiscount);
    if percentageDiscount > sequenceDiscount then percentageDiscount else sequenceDiscount
  }

  /** The price of one ticket: the movie fee less the largest eligible discount,
      with no floor at zero. */
  function CalculateFee(s: Showing): (fee: real)
    ensures Pricing.IsLargest(MovieFee(s) - fee, Candidates(s))
    ensures MovieFee(s) >= 0.0 ==> Pricing.LowestPrice(MovieFee(s)) <= fee <= MovieFee(s)
  {
    var d := Discount(s);
    Pricing.LargestBounds(d, MovieFee(s), IsSpecialMovie(s.movie), s.startTime.hour, s.sequenceOfTheDay);
    MovieFee(s) - d
  }

  /** The showing's fee and the movie's ticket price for that showing are the
      same: the two copies of the rule agree. */
  lemma FeeAgreesWithMovie(s: Showing)
    ensures CalculateFee(s) == CalculateTicketPrice(s.movie, s.sequenceOfTheDay, s.startTime.hour)
  {
    var fee := CalculateFee(s);
    var price := CalculateTicketPrice(s.movie, s.sequenceOfTheDay, s.startTime.hour);
    Pricing.LargestIsUnique(MovieFee(s) - fee, s.movie.ticketPrice - price, Candidates(s));
  }

  /** A special movie in the midday window gets 25% off, not 20% + 25%: the
      percentage discounts do not stack. */
  lemma PercentagesDoNotStack(s: Showing)
    requires IsSpecialMovie(s.movie) && 11 <= s.startTime.hour <= 16
    requires MovieFee(s) >= 0.0
    ensures Discount(s) == Pricing.Max(0.25 * MovieFee(s), Pricing.FlatDiscount(s.sequenceOfTheDay))
  {
  }

  /** A base price of at least the largest flat discount keeps the fee
      non-negative. */
  lemma FeeNonNegative(s: Showing)
    requires MovieFee(s) >= 3.0
    ensures CalculateFee(s) >= 0.0
  {
  }

  /** Below that the fee can be negative: a valid $2 movie shown first at 9:00
      costs -1. */
  lemma NoFloorAtZero()
    ensures var m := Movie("Matinee", 90, 2.0, 0);
            var s := Showing(m, 1, DateTime(Date(2022, 3, 1), 9, 0));
            && NewMovie(Some(m.title), Some(m.runningTime), m.ticketPrice, m.specialCode) == Ok(m)
            && NewShowing(Some(m), 1, Some(s.startTime)) == Ok(s)
            && CalculateFee(s) == -1.0
  {
  }
}

=== FILE: strings.dfy ===
/** Locating the first occurrence of a separator character, used to show that
    the theater's text renderings can be split back into their parts. */
module Strings {

  /** `s` does not contain `c`. */
  predicate Lacks(s: string, c: char) {
    forall i | 0 <= i < |s| :: s[i] != c
  }

  /** Position of the first `c` in `s`, or `|s|` when there is none. */
  function IndexOf(s: string, c: char): (i: nat)
    ensures i <= |s|
    ensures i < |s| ==> s[i] == c
    ensures forall j | 0 <= j < i :: s[j] != c
  {
    if |s| == 0 then 0
    else if s[0] == c then 0
    else 1 + IndexOf(s[1..], c)
  }

  /** A prefix free of `c` followed by `c` puts the first `c` right after the prefix. */
  lemma {:induction false} IndexOfAfterPrefix(x: string, u: string, c: char)
    requires Lacks(x, c)
    requires |u| > 0 && u[0] == c
    ensures IndexOf(x + u, c) == |x|
    decreases |x|
  {
    if |x| == 0 {
      assert x + u == u;
    } else {
      assert (x + u)[0] == x[0];
      assert (x + u)[1..] == x[1..] + u;
      IndexOfAfterPrefix(x[1..], u, c);
    }
  }

  /** Two strings that each consist of a `c`-free part followed by a part that
      starts with `c` are equal only when both parts are equal. */
  lemma SplitAtFirst(x: string, u: string, y: string, v: string, c: char)
    requires Lacks(x, c) && Lacks(y, c)
    requires |u| > 0 && u[0] == c && |v| > 0 && v[0] == c
    requires x + u == y + v
    ensures x == y && u == v
  {
    IndexOfAfterPrefix(x, u, c);
    IndexOfAfterPrefix(y, v, c);
    assert x == (x + u)[..|x|];
    assert y == (y + v)[..|y|];
    assert u == (x + u)[|x|..];
    assert v == (y + v)[|y|..];
  }
}

=== FILE: theater.dfy ===
/** The theater: today's fixed schedule of nine showings, ticket reservation by
    sequence number, and the human-readable rendering of running times. */
module Theaters {
  import opened Outcomes
  import opened Times
  import opened Movies
  import opened Showings
  import opened Customers
  import opened Reservations
  import Decimal
  import Strings

  /** The date provider reduced to what it provides: today's date. */
  datatype DateProvider = DateProvider(currentDate: Date)

  datatype Theater = Theater(provider: DateProvider, schedule: seq<Showing>)

  /** Position `i` of the schedule holds the showing with sequence `i + 1`. */
  predicate DenseSchedule(schedule: seq<Showing>) {
    forall i | 0 <= i < |schedule| :: schedule[i].sequenceOfTheDay == i + 1
  }

  const SpiderMan := Movie("Spider-Man: No Way Home", 90, 12.5, 1)
  const TurningRed := Movie("Turning Red", 85, 11.0, 0)
  const TheBatman := Movie("The Batman", 95, 9.0, 0)

  /** Today's schedule: three movies, three showings each, numbered 1 to 9 in
      order of start time, all on the provider's date. Every showing is one the
      validating constructors accept. */
  function SetupSchedule(today: Date): (schedule: seq<Showing>)
    ensures |schedule| == 9
    ensures DenseSchedule(schedule)
    ensures forall i, j | 0 <= i < j < |schedule| :: Precedes(schedule[i].startTime, schedule[j].startTime)
    ensures forall i | 0 <= i < |schedule| :: schedule[i].startTime.date == today
    ensures forall i | 0 <= i < |schedule| ::
              && Valid(schedule[i].movie)
              && NewShowing(Some(schedule[i].movie), schedule[i].sequenceOfTheDay, Some(schedule[i].startTime))
                 == Ok(schedule[i])
  {
    [ Showing(TurningRed, 1, DateTime(today, 9, 0)),
      Showing(SpiderMan, 2, DateTime(today, 11, 0)),
      Showing(TheBatman, 3, DateTime(today, 12, 50)),
      Showing(TurningRed, 4, DateTime(today, 14, 30)),
      Showing(SpiderMan, 5, DateTime(today, 16, 10)),
      Showing(TheBatman, 6, DateTime(today, 17, 50)),
      Showing(TurningRed, 7, DateTime(today, 19, 30)),
      Showing(SpiderMan, 8, DateTime(today, 21, 10)),
      Showing(TheBatman, 9, DateTime(today, 23, 0)) ]
  }

  /** The constructor: a missing provider is rejected; otherwise the schedule
      is today's. */
  function NewTheater(provider: Option<DateProvider>): (r: Result<Theater>)
    ensures r.Ok? <==> provider.Some?
    ensures r.Err? ==> r.error == NullProvider
    ensures r.Ok? ==> r.value.provider == provider.value
                      && r.value.schedule == SetupSchedule(provider.value.currentDate)
                      && |r.value.schedule| == 9 && DenseSchedule(r.value.schedule)
  {
    if provider.None? then Err(NullProvider)
    else Ok(Theater(provider.value, SetupSchedule(provider.value.currentDate)))
  }

  /** In a dense schedule the showing at position `i` answers `isSequence`
      for exactly one number, `i + 1`. */
  lemma IsSequenceIdentifiesPosition(schedule: seq<Showing>, i: int, n: int)
    requires DenseSchedule(schedule) && 0 <= i < |schedule|
    ensures IsSequence(schedule[i], n) <==> n == i + 1
  {
  }

  /** `reserve`. The ticket count is checked first, then the customer, then
      the sequence, which must name a position of the schedule. */
  function Reserve(theater: Theater, customer: Option<Customer>, sequence: int, howManyTickets: int)
    : (r: Result<Reservation>)
    ensures r.Ok? <==> howManyTickets > 0 && customer.Some? && 1 <= sequence <= |theater.schedule|
    ensures howManyTickets <= 0 ==> r == Err(NonPositiveTicketCount)
    ensures howManyTickets > 0 && customer.None? ==> r == Err(NullCustomer)
    ensures (howManyTickets > 0 && customer.Some? && !(1 <= sequence <= |theater.schedule|)) ==>
              r == Err(ShowingNotFound)
    ensures r.Ok? ==> && r.value.customer == customer.value
                      && r.value.ticketCount == howManyTickets
                      && r.value.showing == theater.schedule[sequence - 1]
    ensures r.Ok? && DenseSchedule(theater.schedule) ==> IsSequence(r.value.showing, sequence)
  {
    if howManyTickets <= 0 then Err(NonPositiveTicketCount)
    else if customer.None? then Err(NullCustomer)
    else if !(0 <= sequence - 1 < |theater.schedule|) then Err(ShowingNotFound)
    else NewReservation(customer.value, theater.schedule[sequence - 1], howManyTickets)
  }

  /** Totals for four tickets at four showings of today's schedule, and a
      request for no tickets by no customer failing on the ticket count. */
  lemma ReserveExamples(provider: DateProvider, john: Customer)
    ensures var theater := NewTheater(Some(provider)).value;
            && Reserve(theater, None, 9, 0) == Err(NonPositiveTicketCount)
            && Reserve(theater, Some(john), 10, 4) == Err(ShowingNotFound)
            && TotalFee(Reserve(theater, Some(john), 9, 4).value) == 36.0
            && TotalFee(Reserve(theater, Some(john), 4, 4).value) == 33.0
            && TotalFee(Reserve(theater, Some(john), 7, 4).value) == 40.0
            && TotalFee(Reserve(theater, Some(john), 8, 4).value) == 40.0
            && TotalFee(Reserve(theater, Some(john), 2, 4).value) == 37.5
  {
  }

  /** `handlePlural`: no suffix for exactly one, "s" otherwise. */
  function HandlePlural(value: int): (suffix: string)
    ensures suffix == "" <==> value == 1
    ensures suffix == "" || suffix == "s"
  {
    if value == 1 then "" else "s"
  }

  /** Whole hours and remaining minutes of a duration in minutes, as
      `Duration.toHours()` (which truncates toward zero) and the difference
      `toMinutes() - toHours() * 60` give them. */
  function HoursAndMinutes(minutes: int): (split: (int, int))
    ensures split.0 * 60 + split.1 == minutes
    ensures -60 < split.1 < 60
    ensures minutes >= 0 ==> split.1 >= 0
    ensures minutes <= 0 ==> split.1 <= 0
  {
    var hours := if minutes >= 0 then minutes / 60 else -((-minutes) / 60);
    (hours, minutes - hours * 60)
  }

  /** For a non-negative duration these are the quotient and remainder by 60. */
  lemma HoursAndMinutesOfNonNegative(minutes: int)
    requires minutes >= 0
    ensures HoursAndMinutes(minutes) == (minutes / 60, minutes % 60)
  {
  }

  /** `humanReadableFormat`, e.g. "(1 hour 30 minutes)": the pattern
      "(%s hour%s %s minute%s)" filled with the hours, their plural suffix, the
      remaining minutes and theirs. */
  function HumanReadableFormat(minutes: int): (s: string)
    ensures |s| > 2 && s[0] == '(' && s[|s| - 1] == ')'
    ensures var k := |Decimal.IntToString(HoursAndMinutes(minutes).0)|;
            1 + k < |s| && Strings.Lacks(s[1..1 + k], ' ') && s[1 + k] == ' '
    ensures var h := HoursAndMinutes(minutes).0;
            1 + |Decimal.IntToString(h)| <= |s| && s[1..1 + |Decimal.IntToString(h)|] == Decimal.IntToString(h)
  {
    var (hour, remainingMin) := HoursAndMinutes(minutes);
    var text := "(" + (Decimal.IntToString(hour) + HoursTail(hour, remainingMin));
    NumberHasNoSpace(hour);
    assert text[1..1 + |Decimal.IntToString(hour)|] == Decimal.IntToString(hour);
    text
  }

  /** What follows the hours: " hour[s] <minutes> minute[s])". */
  function HoursTail(hour: int, remainingMin: int): string {
    " hour" + HandlePlural(hour) + " " + (Decimal.IntToString(remainingMin) + MinutesTail(remainingMin))
  }

  /** What follows the minutes: " minute[s])". */
  function MinutesTail(remainingMin: int): string {
    " minute" + HandlePlural(remainingMin) + ")"
  }

  lemma HumanReadableFormatExample()
    ensures HumanReadableFormat(90) == "(1 hour 30 minutes)"
  {
    assert HoursAndMinutes(90) == (1, 30);
    DecimalOfOneAndThirty();
    assert HoursTail(1, 30) == " hour 30 minutes)" by {
      assert MinutesTail(30) == " minutes)";
    }
  }

  lemma DecimalOfOneAndThirty()
    ensures Decimal.IntToString(1) == "1"
    ensures Decimal.IntToString(30) == "30"
  {
    assert Decimal.NatToString(30) == Decimal.NatToString(3) + [Decimal.DigitChar(0)];
  }

  lemma HumanReadableFormatSingularMinute()
    ensures HumanReadableFormat(121) == "(2 hours 1 minute)"
  {
    assert HoursAndMinutes(121) == (2, 1);
    assert Decimal.IntToString(1) == "1";
    assert Decimal.IntToString(2) == "2";
    assert MinutesTail(1) == " minute)";
    assert HoursTail(2, 1) == " hours 1 minute)";
    assert HumanReadableFormat(121) == "(" + ("2" + " hours 1 minute)");
  }

  /** Different running times are rendered differently. */
  lemma HumanReadableFormatInjective(a: int, b: int)
    requires HumanReadableFormat(a) == HumanReadableFormat(b)
    ensures a == b
  {
    var (ha, ma) := HoursAndMinutes(a);
    var (hb, mb) := HoursAndMinutes(b);
    var tailA, tailB := HoursTail(ha, ma), HoursTail(hb, mb);
    assert Decimal.IntToString(ha) + tailA == HumanReadableFormat(a)[1..];
    assert Decimal.IntToString(hb) + tailB == HumanReadableFormat(b)[1..];
    NumberHasNoSpace(ha);
    NumberHasNoSpace(hb);
    Strings.SplitAtFirst(Decimal.IntToString(ha), tailA, Decimal.IntToString(hb), tailB, ' ');
    Decimal.IntToStringInjective(ha, hb);
    var k := |" hour" + HandlePlural(ha) + " "|;
    assert Decimal.IntToString(ma) + MinutesTail(ma) == tailA[k..];
    assert Decimal.IntToString(mb) + MinutesTail(mb) == tailB[k..];
    NumberHasNoSpace(ma);
    NumberHasNoSpace(mb);
    Strings.SplitAtFirst(Decimal.IntToString(ma), MinutesTail(ma), Decimal.IntToString(mb), MinutesTail(mb), ' ');
    Decimal.IntToStringInjective(ma, mb);
  }

  lemma NumberHasNoSpace(n: int)
    ensures Strings.Lacks(Decimal.IntToString(n), ' ')
  {
  }
}

=== FILE: times.dfy ===
/** The parts of `java.time` the theater relies on: a calendar date, treated as an
    opaque value supplied by the date provider, and a start time of which only the
    hour and minute matter. */
module Times {

  /** `LocalDateTime.getHour()` ranges over 0..23. */
  type Hour = h: int | 0 <= h < 24

  type Minute = m: int | 0 <= m < 60

  datatype Date = Date(year: int, month: int, day: int)

  datatype DateTime = DateTime(date: Date, hour: Hour, minute: Minute)

  /** Minutes elapsed since midnight of the time's own date. */
  function MinuteOfDay(t: DateTime): (m: int)
    ensures 0 <= m < 24 * 60
    ensures m / 60 == t.hour && m % 60 == t.minute
  {
    t.hour * 60 + t.minute
  }

  /** `a` starts strictly before `b` on the same day. */
  predicate Precedes(a: DateTime, b: DateTime) {
    a.date == b.date && MinuteOfDay(a) < MinuteOfDay(b)
  }
}
